=== FILE: README.md ===
# tap-cbr in Dafny

A Dafny model of the core of `tap-cbr`. This Singer tap copies the daily
exchange rates of the Central Bank of Russia, as published by the
`cbr-xml-daily.ru` archive, into a Singer stream. The model covers these
parts of `tap_cbr/__init__.py`:

- `make_schema`.
- The whole of `do_sync`:
  - the nested retry loop `make_retry`;
  - the coercion of the `currencies` setting;
  - the inclusive day loop;
  - the flattening of a day's `Valute` object into one wide record;
  - the final emission of schema, records and state.

The network is replaced by an oracle. An `Archive` maps each day to the
`Responses` that successive requests for that day's URL receive. Each
response is an `Attempt`: an exception raised by the HTTP client, or a
response carrying a status, a body text and the `Valute` object of its JSON
body. Days are integer ordinals, so "the next day" is `+ 1`.

The Singer messages become `Event`s in a sequence. A run (`SyncRun`) records:
- the days it fetched;
- the events it wrote;
- how it ended: the "rows=N" message, the "nothing done" message, or the
  error raised when reading back a record's `date` fails.

Modules:

- `Values` (values.dfy): optional values, days, opaque numbers, and the
  `Valute` object. `Valute` is an ordered sequence of (code, rate) entries
  with distinct codes, because a Python dict iterates in insertion order.
- `Fetcher` (fetcher.dfy):
  - the marker string and the constants `N_RETRIES` and `DELAY_SECONDS`;
  - the classification of one attempt;
  - the retry loop, with the sleeps it performs.
- `Records` (records.dfy): the currency filter, the flattening of a
  `Valute` object into a record, and `make_schema`.
- `Driver` (driver.dfy):
  - the day loop;
  - the emission loop;
  - the state bookkeeping;
  - `Sync`, which is `do_sync` as a whole.
- `Scenarios` (scenarios.dfy): concrete archives whose runs are computed in
  full.

Some behaviour of the code is kept exactly as written:

- **The marker and the status.** A body containing the marker means "no
  rate for this date" whatever the status. A non-200 status without the
  marker is retried. A 200 without the marker is a success.
- **Sleeps.** The loop sleeps after every failed attempt, the last one
  included. When all ten attempts fail, ten delays are recorded: 10, 20, …,
  5120 seconds.
- **Which days give a record.** A day has a record only when its fetch
  succeeds and its `Valute` object is present and non-empty.
- **Keys of a record.** With a non-empty list filter, every record has
  `CODE` and `CODE_Nominal` for every filtered code. For filter codes that
  are neither `date` nor another code's `_Nominal` column, both are null
  when the currency is absent that day. A filter such as
  `["USD", "USD_Nominal"]` breaks this: the write for the code
  `USD_Nominal` overwrites USD's nominal column. Without a filter, a record
  has those keys for exactly the codes of that day. Each holds that entry's
  own numbers, unless the day lists a code that is another code's
  `_Nominal` column.
- **The `currencies` setting.** A value that is not a list, and the empty
  list, both mean "all currencies".
- **A currency called `date`.** Its value overwrites the record's `date`
  column. `date.fromisoformat` then raises on that record during emission,
  after the schema and the records before it (and that record itself) were
  written. No state is written. The model ends such a run with
  `RecordDateError`. A non-empty filter without the code `date` can never
  fail this way (`FilteredRunNeverFails`).
- **The schema.** It is built from the last record only.
  - With a non-empty filter none of whose codes is `date`, all records
    share one key set, so the schema describes every record.
  - Without a filter, the schema can miss a column an earlier record has;
    `Scenarios.UnfilteredSchemaMayOmitKeys` exhibits such a run.
- **The state.** `date_start` becomes the day after the last record written.
  `date_stop` becomes the day after the old `date_stop`. Without records,
  nothing is written at all, not even the state.

## Model

| member | source | states |
|---|---|---|
| Values.Lookup | tap_cbr/__init__.py:130-131 | `valutes.get(code)` finds an entry exactly when the code is listed, and then it is that code's entry |
| Fetcher.ContainsIsSubstring | tap_cbr/__init__.py:83-90 | the marker test `part in text` holds exactly when `part` occurs in `text` at some index |
| Fetcher.Classify | tap_cbr/__init__.py:83-94 | each attempt is exactly one of retryable, no-data or success: the marker gives no-data whatever the status; a raise, or a non-200 without the marker, is retried; a 200 without the marker succeeds with that response's `Valute` |
| Fetcher.Terminal | tap_cbr/__init__.py:90-94 | a terminal verdict never means exhaustion: a no-data verdict ends the loop with "no data", and a success ends it with exactly that response's `Valute` |
| Fetcher.Delay | tap_cbr/__init__.py:79-84 | the sleep after failed attempt `retry`, defined by doubling from `delay_seconds`, equals the source's `delay_seconds * 2**retry` |
| Fetcher.RetryFrom | tap_cbr/__init__.py:74-96 | from iteration `retry` on: at most `n_retries - retry` sleeps; each follows a retryable attempt and lasts `delay_seconds * 2**i`; exhaustion comes after exactly `n_retries - retry` sleeps; otherwise the attempt after the sleeps is terminal and decides the result |
| Fetcher.MakeRetry | tap_cbr/__init__.py:73-96 | at most `n_retries` requests; every attempt before the last is retryable and followed by a sleep of `delay_seconds * 2**k`; the first terminal attempt decides the result; with none, the loop is exhausted after `n_retries` sleeps |
| Fetcher.RetryFromAgrees | tap_cbr/__init__.py:73-96 | only the first `n_retries` responses are requested: two oracles that agree on them give the same result and the same sleeps |
| Fetcher.ExhaustedIffAllRetryable | tap_cbr/__init__.py:74-96 | the loop returns nothing after its last iteration exactly when every one of the `n_retries` attempts was retryable |
| Fetcher.FirstTerminalDecides | tap_cbr/__init__.py:74-94 | if attempt j is the first terminal one, the result is j's verdict, the sleeps are `delay_seconds * 2**k` for k < j, and exactly j + 1 requests are made |
| Fetcher.BackoffDoubles | tap_cbr/__init__.py:79-89 | each sleep is twice the one before |
| Fetcher.GeometricSum | tap_cbr/__init__.py:74-89 | the sleeps from iteration `retry` on add up to `delay_seconds * 2**retry * (2**m - 1)` for m sleeps |
| Fetcher.DefaultBackoffBound | tap_cbr/__init__.py:48-49 | with 10 attempts and a 10 s base, one day sleeps at most 10230 s in backoff |
| Fetcher.DefaultSleepBound | tap_cbr/__init__.py:48-49 | with 10 attempts and a 10 s base, no single sleep exceeds 5120 s |
| Records.CoerceFilter | tap_cbr/__init__.py:98-100 | the filter restricts the columns exactly when `currencies` is a non-empty list, and then to that list; a non-list and an empty list both mean all currencies |
| Records.NominalKeyNotDate | tap_cbr/__init__.py:131 | a `CODE_Nominal` key is never `date` and never the code itself |
| Records.NominalKeyInjective | tap_cbr/__init__.py:131 | different codes get different nominal columns |
| Records.Assign | tap_cbr/__init__.py:129-135 | the column loop adds exactly `CODE` and `CODE_Nominal` for each code it runs over, and no other key |
| Records.AssignValue | tap_cbr/__init__.py:129-135 | a code's column ends with that currency's `Value` (null if absent) unless a nominal write hits it |
| Records.AssignNominal | tap_cbr/__init__.py:129-135 | a `CODE_Nominal` column ends with that currency's `Nominal` (null if absent) unless a code is literally named like it |
| Records.AssignUntouched | tap_cbr/__init__.py:129-135 | a key the column loop never writes keeps its value |
| Records.AssignNumbers | tap_cbr/__init__.py:129-135 | every column the loop writes holds a nullable number |
| Records.Flatten | tap_cbr/__init__.py:127-135 | a record has exactly `date` plus `CODE` and `CODE_Nominal` for every column code (the filtered codes, or all codes of that day); its `date` reads back as the processed day exactly when no column code is `date` |
| Records.FlattenValues | tap_cbr/__init__.py:127-135 | without clashing codes, `date` is the processed day and each column holds its currency's `Value` / `Nominal`, null when absent |
| Records.FilteredAbsentIsNull | tap_cbr/__init__.py:128-131 | for filter codes that are neither `date` nor another code's `_Nominal` column, a filtered code missing that day gets both columns, set to null rather than left out |
| Records.UnfilteredValues | tap_cbr/__init__.py:132-135 | without a filter, for a day none of whose codes is another code's `_Nominal` column, every entry of the day appears with exactly its own `Value` and `Nominal` (a currency called `date` included) |
| Records.RecordDate | tap_cbr/__init__.py:144 | `date.fromisoformat(record['date'])` yields a day only when `date` holds a date; when a number has overwritten it, it does not (there the source raises) |
| Records.ThreeLetterCodesClashFree | tap_cbr/__init__.py:129-135 | three-letter codes can never overwrite `date` or each other's columns |
| Records.MakeSchema | tap_cbr/__init__.py:52-68 | the schema's properties are exactly `date` plus the record's keys; `date` is a date string and is never overwritten; every other property is a nullable number |
| Records.SchemaDescribesIff | tap_cbr/__init__.py:52-68 | a record's own schema describes it exactly when `date` is its only date-valued field |
| Records.FlattenWellTyped | tap_cbr/__init__.py:127-135 | a flattened record has `date` as its only date field exactly when no column code is `date` |
| Records.FilteredSchemaFitsEveryRecord | tap_cbr/__init__.py:128-131 | under one filter without `date`, the schema built from any day's record describes any other day's record |
| Driver.DayValute | tap_cbr/__init__.py:117-126 | a day's snapshot is non-empty and is the `Valute` of the first attempt that is not retried, a 200 without the marker, with every attempt before it retried; a day whose every attempt is retried has none |
| Driver.DayRecord | tap_cbr/__init__.py:124-136 | a day's record, when its `date` reads back, carries that day |
| Driver.DaysFrom | tap_cbr/__init__.py:111-138 | the days `date_start`, `date_start + 1`, …, `date_stop`: one day each, in order, none when the range is empty |
| Driver.Loop | tap_cbr/__init__.py:111-138 | the loop fetches exactly the days `DaysFrom` lists, in order; the records accumulated come from days of the range that yield that very record, in strictly increasing order of day |
| Driver.LoopReadsOnlyRange | tap_cbr/__init__.py:111-138 | the loop consults the fetch only for days of the range: two fetches that agree there give the same harvest |
| Driver.LoopComplete | tap_cbr/__init__.py:111-138 | no day of the range that yields a record is missed |
| Driver.LoopLastIsLatest | tap_cbr/__init__.py:111-138 | the last accumulated day is the latest one and lies within the range |
| Driver.LoopDated | tap_cbr/__init__.py:127-138 | every accumulated record whose `date` reads back carries the day it was accumulated for |
| Driver.EmitRecords | tap_cbr/__init__.py:142-144 | the emission loop writes only record messages, for a prefix of `data` in order; that it stops right after the first record that raises is `EmitStopsAtUndated` |
| Driver.EmitCompletes | tap_cbr/__init__.py:142-144 | the loop finishes exactly when every record's `date` reads back; it then wrote all records, kept `date_stop`, and left `date_start` at the day after the last record |
| Driver.EmitStopsAtUndated | tap_cbr/__init__.py:142-144 | when the loop raises, the last record it wrote is the first whose `date` does not read back |
| Driver.Publish | tap_cbr/__init__.py:140-154 | nothing is written exactly when there are no records; the run completes with `rows = len(data)` exactly when every record's `date` reads back |
| Driver.PublishShape | tap_cbr/__init__.py:140-150 | with dated records: one schema from the last record, every record in order, one state with `date_start` after the last record and `date_stop + 1` |
| Driver.PublishErrorShape | tap_cbr/__init__.py:140-144 | a failing emission writes the schema of the last record, then the records up to and including the first undated one (every record before it is dated), and no state |
| Driver.RunErrorShape | tap_cbr/__init__.py:140-144 | a run that raises, for any per-day step, writes exactly that stream over the records its loop accumulated |
| Driver.Run | tap_cbr/__init__.py:104-154 | the loop fetches every day of the range once, in order; nothing is written exactly when the run ends with "nothing done" |
| Driver.RunNothingDoneIff | tap_cbr/__init__.py:140-154 | a run does nothing exactly when no day of the range yields a record |
| Driver.Sync | tap_cbr/__init__.py:71-154 | `do_sync` fetches every day of the range once, in increasing order; it writes nothing exactly when it ends with "nothing done" |
| Driver.SyncReadsOnlyVisited | tap_cbr/__init__.py:104-126 | `do_sync` requests nothing but the first `n_retries` responses of each day of the range: two archives that agree there give the same run |
| Driver.SyncNothingDoneIff | tap_cbr/__init__.py:140-154 | `do_sync` writes nothing exactly when no day of the range has a record |
| Driver.RunOutputShape | tap_cbr/__init__.py:140-150 | a completed run writes one schema from the last record, every record in order, then one state after the last record's day with `date_stop + 1` |
| Driver.SyncOutputShape | tap_cbr/__init__.py:140-150 | a completed `do_sync` writes schema, records and state as above; each record is dated with the day it was fetched for |
| Driver.DayRecordFromFirstTerminal | tap_cbr/__init__.py:117-136 | a day has a record exactly when its first terminal attempt is a 200 without the marker with a non-empty `Valute`; the record is that snapshot flattened |
| Driver.ExhaustedDaySkipped | tap_cbr/__init__.py:117-126 | a day whose every attempt is retryable gets no record |
| Driver.AllExhaustedNothingDone | tap_cbr/__init__.py:111-154 | when every day of the range fails transiently, nothing is written and the run reports "nothing done" |
| Driver.EmptyRangeDoesNothing | tap_cbr/__init__.py:111-154 | when `date_start > date_stop` no day is fetched and nothing is written |
| Driver.SyncErrorShape | tap_cbr/__init__.py:117-144 | a failing `do_sync` writes the schema of the last record, then the records up to and including the first undated one (every record before it is dated), and no state; the failing record's day lists a column code `date` |
| Driver.StreamRecordsPrecedeState | tap_cbr/__init__.py:142-147 | in a completed stream with dated records, every record is dated before the state's `date_start` |
| Driver.RunRecordsPrecedeState | tap_cbr/__init__.py:142-147 | every record of a completed run is dated before the `date_start` it writes, and `date_stop` becomes the old one plus one |
| Driver.RecordsPrecedeState | tap_cbr/__init__.py:142-147 | the same for `do_sync` |
| Driver.ResumeSkipsProcessedDays | tap_cbr/__init__.py:144-147 | a next run started from the written state fetches none of the days that produced records, and runs to the day after the old `date_stop` |
| Driver.RunNeverFails | tap_cbr/__init__.py:142-144 | a run whose records all have a readable `date` cannot raise |
| Driver.FilteredRunNeverFails | tap_cbr/__init__.py:128-144 | a non-empty filter without the code `date` never makes the run raise |
| Driver.FilteredDaysAgree | tap_cbr/__init__.py:128-141 | under one such filter, the schema of any day's record describes any other day's record |
| Driver.RunSchemaDescribes | tap_cbr/__init__.py:140-143 | when all records share their keys, the schema written describes every record written |
| Driver.FilteredSchemaDescribesEveryRecord | tap_cbr/__init__.py:128-143 | with a non-empty filter without `date`, the schema written describes every record written |
| Scenarios.MarkerBeatsStatus | tap_cbr/__init__.py:83-92 | a 404 with the marker is "no data"; a 500 without it is retried |
| Scenarios.TwoFailuresThenNoData | tap_cbr/__init__.py:74-92 | a raise, then a 503, then the marker: "no data" after sleeps of 10 and 20 s, and no record |
| Scenarios.FilteredSingleDay | tap_cbr/__init__.py:124-150 | one day filtered to USD, on a day listing USD and EUR: the complete output is the schema {date, USD, USD_Nominal}, the one record, and the state `(day + 1, day + 1)` |
| Scenarios.UnfilteredSchemaMayOmitKeys | tap_cbr/__init__.py:132-141 | an unfiltered run over a USD-only day and a EUR-only day completes, but its schema has no `USD` property, so it does not describe the first record |

## Left out

- `main` (argument parsing, reading the config and state files, the
  "yesterday" defaults from the wall clock) is I/O plumbing and is not
  modelled.
- HTTP is replaced by the `Archive` oracle. The following are not modelled:
  the request itself, the URL built from the date at line 115, and
  `response.json()`. An attempt carries the parsed `Valute` object or None,
  so the following crashes of the source are not modelled:
  - a body that is not JSON, where `response.json()` raises (line 125);
  - a JSON body that is not an object (a list, say), where `.get('Valute')`
    raises (line 125);
  - a `Valute` that is not an object, where `.get` raises (lines 130-135);
  - a currency entry that is not an object, such as `"USD": null`, where
    `.get('Value')` raises (lines 130-131 and 134-135); `Rate` holds only
    the two optional numbers and cannot represent it.
- Truthiness of a `requests.Response` is not modelled separately. The loop
  returns a response only when its status is 200, and such a response is
  truthy.
- `time.sleep` is not performed. The backoff delays are recorded in
  `Retrial.delays`. The fixed two-second sleep before each day is not
  recorded.
- Logging, including the completion messages, is left out. The completion
  message is reduced to `Completion`.
- The `Value` and `Nominal` numbers are opaque (`Number`), because the tap
  never computes with them. A `Value` that is not a number is not
  distinguished either.
- Calendar dates are integer ordinals. ISO parsing and formatting, the
  `date.max` overflow of `timedelta`, and malformed date strings are not
  modelled.
- The key order of the JSON objects written (records and schema
  properties) is not modelled. Records and schemas are maps.
- Filter codes are strings. A list holding non-string codes is not
  modelled.
- Fetcher.MakeRetry: `delay_seconds` is any integer. In the source a
  negative value makes `time.sleep` raise `ValueError` on the first
  retryable attempt (lines 81 and 89), which ends `do_sync`. The model
  instead records the negative delays and goes on. `do_sync` always passes
  `DELAY_SECONDS = 10`, so the modelled core never reaches this case.
- Records.MakeSchema: models only the `properties` object. The constant
  `"type": "object"` wrapper and the exact JSON spelling of the property
  types are left out.
- Driver.Sync: the day loop and the emission are one pure function, and the
  `key_properties` argument is the constant `"date"` as written. How the
  Singer library serializes the messages is not modelled.

=== FILE: driver.dfy ===
/**
  The sync driver (`do_sync`): walks the inclusive date range day by day,
  fetches each day, accumulates one record per day that has data, then emits
  one schema, every record in order and one state, advancing `date_start`
  and `date_stop` for the next run.
 */
module Driver {
  import opened Values
  import opened Fetcher
  import opened Records

  /** The stream every message is written to. */
  const Stream: string := "exchange_rate_cbr"

  /** The key property declared with the schema. */
  const KeyProperty: string := "date"

  /** The archive as the tap sees it: for each day, the responses successive
      requests for that day's URL get. */
  type Archive = Day -> Responses

  /** The bookmark written at the end of a run with output. */
  datatype RunState = RunState(dateStart: Day, dateStop: Day)

  /** One message of the output stream. */
  datatype Event =
    | SchemaEvent(stream: string, schema: Schema, keyProperty: string)
    | RecordEvent(stream: string, record: Record)
    | StateEvent(state: RunState)

  /** How a run ends: the "rows=N" completion message, the "nothing done"
      message, or the error raised when a record's `date` is not a date. */
  datatype Completion = Completed(rows: nat) | NothingDone | RecordDateError

  /** The days the loop fetched, in order, and everything written to the stream. */
  datatype SyncRun = SyncRun(visited: seq<Day>, events: seq<Event>, completion: Completion)

  /** The `Valute` object of a day whose fetch succeeded with a non-empty
      one; None when the day has no data, retries ran out, or it is empty.
      A snapshot is the `Valute` of the first response that is not retried,
      a 200 without the marker; a day whose every attempt is retried has none. */
  function DayValute(archive: Archive, day: Day): (r: Option<Valute>)
    ensures r.Some? ==> |r.value| > 0
    ensures r.Some? ==>
      var k := |MakeRetry(archive(day), NRetries, DelaySeconds).delays|;
      && k < NRetries
      && (forall j :: 0 <= j < k ==> Classify(archive(day)(j)).Retryable?)
      && Classify(archive(day)(k)) == Success(r)
    ensures (forall k :: 0 <= k < NRetries ==> Classify(archive(day)(k)).Retryable?) ==> r.None?
  {
    ExhaustedIffAllRetryable(archive(day), NRetries, DelaySeconds);
    var fetched := MakeRetry(archive(day), NRetries, DelaySeconds).result;
    if fetched.Fetched? && fetched.valute.Some? && |fetched.valute.value| > 0 then fetched.valute else None
  }

  /** One loop iteration: the record accumulated for `day`, if any. */
  function DayRecord(archive: Archive, filter: Filter, day: Day): (r: Option<Record>)
    ensures r.Some? && RecordDate(r.value).Some? ==> RecordDate(r.value).value == day
  {
    match DayValute(archive, day)
    case None => None
    case Some(v) => Some(Flatten(day, v, filter))
  }

  /** The iteration body of the sync loop for a given archive and filter. */
  function DaySteps(archive: Archive, filter: Filter): (step: Day -> Option<Record>)
    ensures forall d :: step(d) == DayRecord(archive, filter, d)
  {
    d => DayRecord(archive, filter, d)
  }

  /** The days the `while` loop walks: `day`, `day + 1`, ..., `stop`. */
  function DaysFrom(day: Day, stop: Day): (days: seq<Day>)
    ensures |days| == Max0(stop - day + 1)
    ensures forall i :: 0 <= i < |days| ==> days[i] == day + i
    decreases stop - day
  {
    if day > stop then [] else [day] + DaysFrom(day + 1, stop)
  }

  /** What the day loop accumulates: the days it fetched, the days that
      yielded a record and those records, in the same order. */
  datatype Harvest = Harvest(walked: seq<Day>, recordedDays: seq<Day>, data: seq<Record>)

  /** The `while` loop from `day` to `stop`, with `step` the work of one
      iteration: it fetches every day of the inclusive range once, in order,
      and accumulates the records of the days that have one in increasing
      order of day. */
  function Loop(step: Day -> Option<Record>, day: Day, stop: Day): (h: Harvest)
    ensures h.walked == DaysFrom(day, stop)
    ensures |h.data| == |h.recordedDays|
    ensures forall i :: 0 <= i < |h.recordedDays| ==>
      day <= h.recordedDays[i] <= stop && step(h.recordedDays[i]) == Some(h.data[i])
    ensures forall i, j :: 0 <= i < j < |h.recordedDays| ==> h.recordedDays[i] < h.recordedDays[j]
    decreases stop - day
  {
    if day > stop then Harvest([], [], [])
    else
      var rest := Loop(step, day + 1, stop);
      var today := step(day);
      if today.None? then rest.(walked := [day] + rest.walked)
      else
        var h := Harvest([day] + rest.walked, [day] + rest.recordedDays, [today.value] + rest.data);
        assert forall i :: 0 < i < |h.recordedDays| ==>
          h.recordedDays[i] == rest.recordedDays[i - 1] && h.data[i] == rest.data[i - 1];
        h
  }

  /** No day with a record is missed: every day of the range whose fetch
      yields a record has that record accumulated. */
  lemma {:induction false} LoopComplete(step: Day -> Option<Record>, day: Day, stop: Day, d: Day)
    requires day <= d <= stop
    requires step(d).Some?
    ensures d in Loop(step, day, stop).recordedDays
    decreases stop - day
  {
    var h := Loop(step, day, stop);
    var rest := Loop(step, day + 1, stop);
    if d != day {
      LoopComplete(step, day + 1, stop, d);
      if step(day).Some? {
        assert h.recordedDays == [day] + rest.recordedDays;
      } else {
        assert h.recordedDays == rest.recordedDays;
      }
    }
  }

  /** The last day with a record is the latest, and within the range. */
  lemma LoopLastIsLatest(step: Day -> Option<Record>, day: Day, stop: Day)
    ensures var days := Loop(step, day, stop).recordedDays;
      forall i :: 0 <= i < |days| ==> days[i] <= days[|days| - 1] <= stop
  {
    var days := Loop(step, day, stop).recordedDays;
    forall i | 0 <= i < |days|
      ensures days[i] <= days[|days| - 1] <= stop
    {
      if i < |days| - 1 {
        assert days[i] < days[|days| - 1];
      }
    }
  }

  /** What the emission loop produced: the record messages written and the
      state after it, None if a record's date could not be read back. */
  datatype Emission = Emission(events: seq<Event>, state: Option<RunState>)

  /** The emission loop: each record is written, then `date_start` becomes the
      day after that record's date; reading a `date` that is not a date
      raises, after that record was written. Nothing but records is written,
      and no record after the one that raises. */
  function EmitRecords(data: seq<Record>, state: RunState): (e: Emission)
    ensures |e.events| <= |data|
    ensures forall i :: 0 <= i < |e.events| ==> e.events[i] == RecordEvent(Stream, data[i])
  {
    if |data| == 0 then Emission([], Some(state))
    else
      match RecordDate(data[0])
      case None => Emission([RecordEvent(Stream, data[0])], None)
      case Some(d) =>
        var rest := EmitRecords(data[1..], state.(dateStart := d + 1));
        var events := [RecordEvent(Stream, data[0])] + rest.events;
        assert forall i :: 0 < i < |events| ==> events[i] == rest.events[i - 1];
        Emission(events, rest.state)
  }

  /** The loop runs to the end exactly when every record's `date` is a
      date; it then wrote every record, kept `date_stop`, and left
      `date_start` at the day after the last record. */
  lemma {:induction false} EmitCompletes(data: seq<Record>, state: RunState)
    ensures var e := EmitRecords(data, state);
      && (e.state.Some? <==> forall i :: 0 <= i < |data| ==> RecordDate(data[i]).Some?)
      && (e.state.Some? ==>
        && |e.events| == |data|
        && e.state.value.dateStop == state.dateStop
        && e.state.value.dateStart == (if |data| == 0 then state.dateStart else RecordDate(data[|data| - 1]).value + 1))
    decreases |data|
  {
    if |data| > 0 && RecordDate(data[0]).Some? {
      var next := state.(dateStart := RecordDate(data[0]).value + 1);
      EmitCompletes(data[1..], next);
      assert forall i :: 0 < i < |data| ==> data[i] == data[1..][i - 1];
    }
  }

  /** When the loop raises, the last record it wrote is the first one whose
      `date` is not a date. */
  lemma {:induction false} EmitStopsAtUndated(data: seq<Record>, state: RunState)
    requires EmitRecords(data, state).state.None?
    ensures var m := |EmitRecords(data, state).events|;
      && 0 < m
      && RecordDate(data[m - 1]).None?
      && forall i :: 0 <= i < m - 1 ==> RecordDate(data[i]).Some?
    decreases |data|
  {
    if RecordDate(data[0]).Some? {
      var next := state.(dateStart := RecordDate(data[0]).value + 1);
      EmitStopsAtUndated(data[1..], next);
      assert forall i :: 0 < i < |data| ==> data[i] == data[1..][i - 1];
    }
  }

  /** The messages written after the loop and how the run ends. */
  datatype Output = Output(events: seq<Event>, completion: Completion)

  /** The code after the loop: nothing at all without records; otherwise the
      schema of the last record, the records, and the state with `date_stop`
      advanced by one day. The run completes exactly when every record's
      `date` can be read back. */
  function Publish(data: seq<Record>, state: RunState): (o: Output)
    ensures o.events == [] <==> |data| == 0
    ensures o.completion.NothingDone? <==> |data| == 0
    ensures o.completion.Completed? <==> |data| > 0 && forall i :: 0 <= i < |data| ==> RecordDate(data[i]).Some?
    ensures o.completion.Completed? ==> o.completion.rows == |data|
  {
    if |data| == 0 then Output([], NothingDone)
    else
      var schema := SchemaEvent(Stream, MakeSchema(data[|data| - 1]), KeyProperty);
      var e := EmitRecords(data, state);
      EmitCompletes(data, state);
      match e.state
      case None => Output([schema] + e.events, RecordDateError)
      case Some(st) => Output([schema] + e.events + [StateEvent(st.(dateStop := st.dateStop + 1))], Completed(|data|))
  }

  /** The stream of a completed run over the records `data`, accumulated
      for the days `days`: one schema built from the last record, every
      record in order, then one state whose `date_start` is the day after the
      last record and whose `date_stop` is one day after `dateStop`. */
  ghost predicate CompletedStream(events: seq<Event>, data: seq<Record>, days: seq<Day>, dateStop: Day)
  {
    var n := |data|;
    && 0 < n == |days|
    && |events| == n + 2
    && events[0] == SchemaEvent(Stream, MakeSchema(data[n - 1]), KeyProperty)
    && (forall i :: 0 <= i < n ==> events[i + 1] == RecordEvent(Stream, data[i]))
    && events[n + 1] == StateEvent(RunState(days[n - 1] + 1, dateStop + 1))
  }

  /** With every record dated, the run completes with the stream above. */
  lemma PublishShape(data: seq<Record>, days: seq<Day>, state: RunState)
    requires 0 < |data| == |days|
    requires forall i :: 0 <= i < |data| ==> RecordDate(data[i]) == Some(days[i])
    ensures Publish(data, state).completion == Completed(|data|)
    ensures CompletedStream(Publish(data, state).events, data, days, state.dateStop)
  {
    var n := |data|;
    var e := EmitRecords(data, state);
    EmitCompletes(data, state);
    assert RecordDate(data[n - 1]) == Some(days[n - 1]);
    var events := [SchemaEvent(Stream, MakeSchema(data[n - 1]), KeyProperty)] + e.events
      + [StateEvent(RunState(days[n - 1] + 1, state.dateStop + 1))];
    assert Publish(data, state).events == events;
    forall i | 0 <= i < n
      ensures events[i + 1] == RecordEvent(Stream, data[i])
    {
      assert events[i + 1] == e.events[i];
    }
  }

  /** The stream of a run over `data` that raised while emitting: the schema
      built from the last record, then the records up to and including the
      first one whose `date` is not a date (every record before it has a
      readable `date`), and no state. */
  ghost predicate FailedStream(events: seq<Event>, data: seq<Record>)
  {
    var m := |events| - 1;
    && 0 < m <= |data|
    && events[0] == SchemaEvent(Stream, MakeSchema(data[|data| - 1]), KeyProperty)
    && (forall i :: 0 <= i < m ==> events[i + 1] == RecordEvent(Stream, data[i]))
    && (forall i :: 0 <= i < |events| ==> !events[i].StateEvent?)
    && (forall i :: 0 <= i < m - 1 ==> RecordDate(data[i]).Some?)
    && RecordDate(data[m - 1]).None?
  }

  /** A failing emission writes the stream above. */
  lemma PublishErrorShape(data: seq<Record>, state: RunState)
    requires Publish(data, state).completion.RecordDateError?
    ensures FailedStream(Publish(data, state).events, data)
  {
    var e := EmitRecords(data, state);
    var events := [SchemaEvent(Stream, MakeSchema(data[|data| - 1]), KeyProperty)] + e.events;
    EmitCompletes(data, state);
    assert e.state.None?;
    EmitStopsAtUndated(data, state);
    assert Publish(data, state).events == events;
    forall i | 0 <= i < |events|
      ensures !events[i].StateEvent?
      ensures i > 0 ==> events[i] == RecordEvent(Stream, data[i - 1])
    {
      if i > 0 {
        assert events[i] == e.events[i - 1];
      }
    }
  }

  /** The body of `do_sync` after the currency coercion, with `step` the
      work of one loop iteration: the day loop, then the output. The loop
      fetches every day of the range once, in order, and nothing is written
      exactly when the run ends with "nothing done". */
  function Run(step: Day -> Option<Record>, dateStart: Day, dateStop: Day): (r: SyncRun)
    ensures |r.visited| == Max0(dateStop - dateStart + 1)
    ensures forall i :: 0 <= i < |r.visited| ==> r.visited[i] == dateStart + i
    ensures r.events == [] <==> r.completion.NothingDone?
  {
    var h := Loop(step, dateStart, dateStop);
    var o := Publish(h.data, RunState(dateStart, dateStop));
    SyncRun(h.walked, o.events, o.completion)
  }

  /** A run does nothing exactly when no day of the range yields a record. */
  lemma RunNothingDoneIff(step: Day -> Option<Record>, dateStart: Day, dateStop: Day)
    ensures Run(step, dateStart, dateStop).completion.NothingDone?
        <==> forall d :: dateStart <= d <= dateStop ==> step(d).None?
  {
    var h := Loop(step, dateStart, dateStop);
    if |h.data| == 0 {
      forall d | dateStart <= d <= dateStop && step(d).Some?
        ensures false
      {
        LoopComplete(step, dateStart, dateStop, d);
      }
    } else {
      assert step(h.recordedDays[0]).Some?;
    }
  }

  /** `do_sync(date_start, date_stop, currencies)` with the network replaced by
      `archive`: every day of the range is fetched once, in order, and nothing
      is written exactly when the run ends with "nothing done". */
  function Sync(dateStart: Day, dateStop: Day, currencies: CurrenciesSetting, archive: Archive): (r: SyncRun)
    ensures |r.visited| == Max0(dateStop - dateStart + 1)
    ensures forall i :: 0 <= i < |r.visited| ==> r.visited[i] == dateStart + i
    ensures r.events == [] <==> r.completion.NothingDone?
  {
    Run(DaySteps(archive, CoerceFilter(currencies)), dateStart, dateStop)
  }

  /** The loop consults `step` on the days of the range only: two steps that
      agree on those days give the same harvest. */
  lemma {:induction false} LoopReadsOnlyRange(s1: Day -> Option<Record>, s2: Day -> Option<Record>, day: Day, stop: Day)
    requires forall d :: day <= d <= stop ==> s1(d) == s2(d)
    ensures Loop(s1, day, stop) == Loop(s2, day, stop)
    decreases stop - day
  {
    if day <= stop {
      LoopReadsOnlyRange(s1, s2, day + 1, stop);
    }
  }

  /** `do_sync` requests the days it visits and nothing else: two archives
      that answer the first `n_retries` requests for every day of the range
      alike give the same run, whatever they answer for other days. */
  lemma SyncReadsOnlyVisited(dateStart: Day, dateStop: Day, currencies: CurrenciesSetting, a1: Archive, a2: Archive)
    requires forall d, k :: dateStart <= d <= dateStop && 0 <= k < NRetries ==> a1(d)(k) == a2(d)(k)
    ensures Sync(dateStart, dateStop, currencies, a1) == Sync(dateStart, dateStop, currencies, a2)
  {
    var filter := CoerceFilter(currencies);
    forall d | dateStart <= d <= dateStop
      ensures DaySteps(a1, filter)(d) == DaySteps(a2, filter)(d)
    {
      RetryFromAgrees(a1(d), a2(d), 0, NRetries, DelaySeconds);
      assert DayValute(a1, d) == DayValute(a2, d);
    }
    LoopReadsOnlyRange(DaySteps(a1, filter), DaySteps(a2, filter), dateStart, dateStop);
  }

  /** A sync does nothing exactly when no day of the range yields a record. */
  lemma SyncNothingDoneIff(dateStart: Day, dateStop: Day, currencies: CurrenciesSetting, archive: Archive)
    ensures Sync(dateStart, dateStop, currencies, archive).completion.NothingDone?
        <==> forall d :: dateStart <= d <= dateStop ==> DayRecord(archive, CoerceFilter(currencies), d).None?
  {
    RunNothingDoneIff(DaySteps(archive, CoerceFilter(currencies)), dateStart, dateStop);
  }

  /** Every record a step yields carries its own day, unless its `date` was
      overwritten. */
  ghost predicate DatedSteps(step: Day -> Option<Record>)
  {
    forall d :: step(d).Some? && RecordDate(step(d).value).Some? ==> RecordDate(step(d).value).value == d
  }

  /** The records of a dated step carry the days they were accumulated for. */
  lemma LoopDated(step: Day -> Option<Record>, day: Day, stop: Day)
    requires DatedSteps(step)
    ensures var h := Loop(step, day, stop);
      forall i :: 0 <= i < |h.data| && RecordDate(h.data[i]).Some? ==> RecordDate(h.data[i]) == Some(h.recordedDays[i])
  {
    var h := Loop(step, day, stop);
    forall i | 0 <= i < |h.data| && RecordDate(h.data[i]).Some?
      ensures RecordDate(h.data[i]) == Some(h.recordedDays[i])
    {
      assert step(h.recordedDays[i]) == Some(h.data[i]);
    }
  }

  lemma DayStepsDated(archive: Archive, filter: Filter)
    ensures DatedSteps(DaySteps(archive, filter))
  {
  }

  /** The output of a completed run, for any step whose records carry
      their own day. */
  lemma RunOutputShape(step: Day -> Option<Record>, dateStart: Day, dateStop: Day)
    requires DatedSteps(step)
    requires Run(step, dateStart, dateStop).completion.Completed?
    ensures var h := Loop(step, dateStart, dateStop);
      && Run(step, dateStart, dateStop).completion == Completed(|h.data|)
      && CompletedStream(Run(step, dateStart, dateStop).events, h.data, h.recordedDays, dateStop)
  {
    var h := Loop(step, dateStart, dateStop);
    var o := Publish(h.data, RunState(dateStart, dateStop));
    var r := Run(step, dateStart, dateStop);
    assert r.events == o.events && r.completion == o.completion;
    LoopDated(step, dateStart, dateStop);
    PublishShape(h.data, h.recordedDays, RunState(dateStart, dateStop));
  }

  /** A run with records writes one schema built from the last record, every
      record in accumulation order, each dated with its day, then one state
      whose `date_start` is the day after the last record and whose
      `date_stop` is the original `date_stop` plus one. */
  lemma SyncOutputShape(dateStart: Day, dateStop: Day, currencies: CurrenciesSetting, archive: Archive)
    requires Sync(dateStart, dateStop, currencies, archive).completion.Completed?
    ensures var h := Loop(DaySteps(archive, CoerceFilter(currencies)), dateStart, dateStop);
      && Sync(dateStart, dateStop, currencies, archive).completion == Completed(|h.data|)
      && CompletedStream(Sync(dateStart, dateStop, currencies, archive).events, h.data, h.recordedDays, dateStop)
      && (forall i :: 0 <= i < |h.data| ==> RecordDate(h.data[i]) == Some(h.recordedDays[i]))
  {
    var step := DaySteps(archive, CoerceFilter(currencies));
    DayStepsDated(archive, CoerceFilter(currencies));
    RunOutputShape(step, dateStart, dateStop);
    LoopDated(step, dateStart, dateStop);
  }

  /** A day is decided by its first terminal attempt: a record exactly when
      that attempt is a 200 without the marker whose `Valute` is non-empty;
      the marker, whatever the status, gives no record. */
  lemma DayRecordFromFirstTerminal(archive: Archive, filter: Filter, day: Day, j: nat)
    requires j < NRetries
    requires forall k :: 0 <= k < j ==> Classify(archive(day)(k)).Retryable?
    requires !Classify(archive(day)(j)).Retryable?
    ensures var a := archive(day)(j);
      DayRecord(archive, filter, day) ==
        if a.status == 200 && !Contains(a.text, Marker) && a.valute.Some? && |a.valute.value| > 0
        then Some(Flatten(day, a.valute.value, filter))
        else None
  {
    FirstTerminalDecides(archive(day), NRetries, DelaySeconds, j);
  }

  /** A day on which every attempt fails transiently gets no record. */
  lemma ExhaustedDaySkipped(archive: Archive, filter: Filter, day: Day)
    requires forall k :: 0 <= k < NRetries ==> Classify(archive(day)(k)).Retryable?
    ensures DayRecord(archive, filter, day).None?
  {
    ExhaustedIffAllRetryable(archive(day), NRetries, DelaySeconds);
  }

  /** When every day of the range fails transiently there is no output at
      all, in particular no state. */
  lemma AllExhaustedNothingDone(dateStart: Day, dateStop: Day, currencies: CurrenciesSetting, archive: Archive)
    requires forall d, k :: dateStart <= d <= dateStop && 0 <= k < NRetries ==> Classify(archive(d)(k)).Retryable?
    ensures Sync(dateStart, dateStop, currencies, archive).events == []
    ensures Sync(dateStart, dateStop, currencies, archive).completion == NothingDone
  {
    var filter := CoerceFilter(currencies);
    forall d | dateStart <= d <= dateStop
      ensures DayRecord(archive, filter, d).None?
    {
      ExhaustedDaySkipped(archive, filter, d);
    }
    SyncNothingDoneIff(dateStart, dateStop, currencies, archive);
  }

  /** An empty range (`date_start > date_stop`): the loop fetches no day and
      nothing is emitted. */
  lemma EmptyRangeDoesNothing(dateStart: Day, dateStop: Day, currencies: CurrenciesSetting, archive: Archive)
    requires dateStart > dateStop
    ensures Sync(dateStart, dateStop, currencies, archive) == SyncRun([], [], NothingDone)
  {
  }

  /** A day's record is the flattening of that day's non-empty `Valute`. */
  lemma DayRecordIsFlatten(archive: Archive, filter: Filter, day: Day)
    requires DayRecord(archive, filter, day).Some?
    ensures DayValute(archive, day).Some?
    ensures DayRecord(archive, filter, day).value == Flatten(day, DayValute(archive, day).value, filter)
  {
  }

  /** A run that raises, for any step, writes the failed stream of the
      records its loop accumulated. */
  lemma RunErrorShape(step: Day -> Option<Record>, dateStart: Day, dateStop: Day)
    requires Run(step, dateStart, dateStop).completion.RecordDateError?
    ensures FailedStream(Run(step, dateStart, dateStop).events, Loop(step, dateStart, dateStop).data)
  {
    var h := Loop(step, dateStart, dateStop);
    var o := Publish(h.data, RunState(dateStart, dateStop));
    assert Run(step, dateStart, dateStop).events == o.events;
    PublishErrorShape(h.data, RunState(dateStart, dateStop));
  }

  /** When a record's `date` has been overwritten by a currency called
      `date`, the run stops at that record: the schema of the last record and
      the records up to and including the first undated one are written, no
      state is, and the failing record's day lists a column code `date`. */
  lemma SyncErrorShape(dateStart: Day, dateStop: Day, currencies: CurrenciesSetting, archive: Archive)
    requires Sync(dateStart, dateStop, currencies, archive).completion.RecordDateError?
    ensures var h := Loop(DaySteps(archive, CoerceFilter(currencies)), dateStart, dateStop);
      var r := Sync(dateStart, dateStop, currencies, archive);
      var m := |r.events| - 1;
      && FailedStream(r.events, h.data)
      && 0 < m <= |h.recordedDays|
      && DayValute(archive, h.recordedDays[m - 1]).Some?
      && "date" in Columns(DayValute(archive, h.recordedDays[m - 1]).value, CoerceFilter(currencies))
  {
    var filter := CoerceFilter(currencies);
    var step := DaySteps(archive, filter);
    var h := Loop(step, dateStart, dateStop);
    var r := Sync(dateStart, dateStop, currencies, archive);
    RunErrorShape(step, dateStart, dateStop);
    var m := |r.events| - 1;
    var d := h.recordedDays[m - 1];
    assert step(d) == Some(h.data[m - 1]);
    DayRecordIsFlatten(archive, filter, d);
  }

  /** The stream ends with a state whose `date_stop` is one day after
      `dateStop` and whose `date_start` is at most that, and every message
      between the schema and the state is a record dated before that
      `date_start`. */
  ghost predicate RecordsBeforeState(events: seq<Event>, dateStop: Day)
  {
    && |events| > 0
    && var last := events[|events| - 1];
    && last.StateEvent?
    && last.state.dateStart <= dateStop + 1 == last.state.dateStop
    && forall i :: 1 <= i < |events| - 1 ==>
         events[i].RecordEvent? && RecordDate(events[i].record).Some?
         && RecordDate(events[i].record).value < last.state.dateStart
  }

  /** A completed stream whose records carry their days, all within
      `dateStop` and none after the last, has its records before its state. */
  lemma StreamRecordsPrecedeState(events: seq<Event>, data: seq<Record>, days: seq<Day>, dateStop: Day)
    requires CompletedStream(events, data, days, dateStop)
    requires forall i :: 0 <= i < |data| ==> RecordDate(data[i]) == Some(days[i])
    requires forall i :: 0 <= i < |days| ==> days[i] <= days[|days| - 1] <= dateStop
    ensures RecordsBeforeState(events, dateStop)
  {
    forall i | 1 <= i < |events| - 1
      ensures events[i] == RecordEvent(Stream, data[i - 1])
    {
    }
  }

  /** Every record of a completed run is dated before the `date_start` of
      the state it writes, for any step whose records carry their own day. */
  lemma RunRecordsPrecedeState(step: Day -> Option<Record>, dateStart: Day, dateStop: Day)
    requires DatedSteps(step)
    requires Run(step, dateStart, dateStop).completion.Completed?
    ensures RecordsBeforeState(Run(step, dateStart, dateStop).events, dateStop)
  {
    RunOutputShape(step, dateStart, dateStop);
    LoopDated(step, dateStart, dateStop);
    LoopLastIsLatest(step, dateStart, dateStop);
    var h := Loop(step, dateStart, dateStop);
    StreamRecordsPrecedeState(Run(step, dateStart, dateStop).events, h.data, h.recordedDays, dateStop);
  }

  /** Every record of a run with records is dated before the `date_start`
      of the state it writes, and that state's `date_stop` is one day after
      the run's. */
  lemma RecordsPrecedeState(dateStart: Day, dateStop: Day, currencies: CurrenciesSetting, archive: Archive)
    requires Sync(dateStart, dateStop, currencies, archive).completion.Completed?
    ensures RecordsBeforeState(Sync(dateStart, dateStop, currencies, archive).events, dateStop)
  {
    DayStepsDated(archive, CoerceFilter(currencies));
    RunRecordsPrecedeState(DaySteps(archive, CoerceFilter(currencies)), dateStart, dateStop);
  }

  /** Resuming from the state written: every day the next run's loop
      fetches comes after every day that produced a record, so none of them
      is fetched or emitted again, and it runs through the day after the old
      `date_stop`. */
  lemma ResumeSkipsProcessedDays(dateStart: Day, dateStop: Day, currencies: CurrenciesSetting, archive: Archive,
                                 nextCurrencies: CurrenciesSetting, nextArchive: Archive)
    requires Sync(dateStart, dateStop, currencies, archive).completion.Completed?
    ensures var r := Sync(dateStart, dateStop, currencies, archive);
      var last := r.events[|r.events| - 1];
      && last.StateEvent?
      && var next := Sync(last.state.dateStart, last.state.dateStop, nextCurrencies, nextArchive);
      && |next.visited| > 0
      && next.visited[|next.visited| - 1] == dateStop + 1
      && forall i, j :: 1 <= i < |r.events| - 1 && 0 <= j < |next.visited| ==>
           r.events[i].RecordEvent? && RecordDate(r.events[i].record).Some?
           && RecordDate(r.events[i].record).value < next.visited[j]
  {
    RecordsPrecedeState(dateStart, dateStop, currencies, archive);
  }

  /** Every record a step yields has a readable `date`. */
  ghost predicate AllDated(step: Day -> Option<Record>)
  {
    forall d :: step(d).Some? ==> RecordDate(step(d).value).Some?
  }

  /** A run whose records all have a readable `date` cannot fail. */
  lemma RunNeverFails(step: Day -> Option<Record>, dateStart: Day, dateStop: Day)
    requires AllDated(step)
    ensures !Run(step, dateStart, dateStop).completion.RecordDateError?
  {
    var h := Loop(step, dateStart, dateStop);
    forall i | 0 <= i < |h.data|
      ensures RecordDate(h.data[i]).Some?
    {
      assert step(h.recordedDays[i]) == Some(h.data[i]);
    }
  }

  /** A non-empty filter without a code `date` can never make the run fail. */
  lemma FilteredRunNeverFails(dateStart: Day, dateStop: Day, codes: seq<string>, archive: Archive)
    requires |codes| > 0 && "date" !in codes
    ensures !Sync(dateStart, dateStop, AList(codes), archive).completion.RecordDateError?
  {
    assert CoerceFilter(AList(codes)) == Only(codes);
    var step := DaySteps(archive, Only(codes));
    forall d | step(d).Some?
      ensures RecordDate(step(d).value).Some?
    {
      assert step(d).value == Flatten(d, DayValute(archive, d).value, Only(codes));
    }
    RunNeverFails(step, dateStart, dateStop);
  }

  /** Two days' records under the same non-empty filter (no code `date`):
      the schema of one describes the other. */
  lemma FilteredDaysAgree(archive: Archive, codes: seq<string>, d1: Day, d2: Day)
    requires |codes| > 0 && "date" !in codes
    requires DayRecord(archive, Only(codes), d1).Some? && DayRecord(archive, Only(codes), d2).Some?
    ensures Describes(MakeSchema(DayRecord(archive, Only(codes), d2).value), DayRecord(archive, Only(codes), d1).value)
  {
    FilteredSchemaFitsEveryRecord(d1, DayValute(archive, d1).value, d2, DayValute(archive, d2).value, codes);
  }

  /** Every record a step yields is described by the schema of any other. */
  ghost predicate UniformSteps(step: Day -> Option<Record>)
  {
    forall d1, d2 :: step(d1).Some? && step(d2).Some? ==> Describes(MakeSchema(step(d2).value), step(d1).value)
  }

  /** When all records share their keys, the schema of a completed run
      describes every record it writes. */
  lemma RunSchemaDescribes(step: Day -> Option<Record>, dateStart: Day, dateStop: Day)
    requires DatedSteps(step) && UniformSteps(step)
    requires Run(step, dateStart, dateStop).completion.Completed?
    ensures var r := Run(step, dateStart, dateStop);
      forall i :: 1 <= i < |r.events| && r.events[i].RecordEvent? ==>
        r.events[0].SchemaEvent? && Describes(r.events[0].schema, r.events[i].record)
  {
    var r := Run(step, dateStart, dateStop);
    RunOutputShape(step, dateStart, dateStop);
    var h := Loop(step, dateStart, dateStop);
    var n := |h.data|;
    assert step(h.recordedDays[n - 1]) == Some(h.data[n - 1]);
    forall i | 1 <= i < |r.events| && r.events[i].RecordEvent?
      ensures Describes(r.events[0].schema, r.events[i].record)
    {
      assert step(h.recordedDays[i - 1]) == Some(h.data[i - 1]);
    }
  }

  /** With a non-empty filter (no code `date`) all records share one key set,
      so the schema built from the last record describes every record written. */
  lemma FilteredSchemaDescribesEveryRecord(dateStart: Day, dateStop: Day, codes: seq<string>, archive: Archive)
    requires |codes| > 0 && "date" !in codes
    ensures var r := Sync(dateStart, dateStop, AList(codes), archive);
      forall i :: 1 <= i < |r.events| && r.events[i].RecordEvent? ==>
        r.events[0].SchemaEvent? && Describes(r.events[0].schema, r.events[i].record)
  {
    var r := Sync(dateStart, dateStop, AList(codes), archive);
    FilteredRunNeverFails(dateStart, dateStop, codes, archive);
    if r.completion.Completed? {
      assert CoerceFilter(AList(codes)) == Only(codes);
      var step := DaySteps(archive, Only(codes));
      forall d1, d2 | step(d1).Some? && step(d2).Some?
        ensures Describes(MakeSchema(step(d2).value), step(d1).value)
      {
        FilteredDaysAgree(archive, codes, d1, d2);
      }
      DayStepsDated(archive, Only(codes));
      RunSchemaDescribes(step, dateStart, dateStop);
    }
  }
}

=== FILE: fetcher.dfy ===
/**
  The fetcher: one GET per calendar day, each attempt classified into exactly
  one of four cases, retried with exponential backoff for a bounded number of
  attempts (`make_retry` in tap_cbr/__init__.py).
 */
module Fetcher {
  import opened Values

  /** The text the archive puts in the body when no rate was published for
      the requested date (or the date is invalid). */
  const Marker: string := "Курс ЦБ РФ на данную дату не установлен или указана ошибочная дата."

  /** Attempts per day. */
  const NRetries: int := 10

  /** Base of the exponential backoff, in seconds. */
  const DelaySeconds: int := 10

  /** What one request yields: an exception raised by the HTTP client, or a
      response with its status, its text and what `json().get('Valute')`
      returns for its body. */
  datatype Attempt =
    | Raised
    | Response(status: int, text: string, valute: Option<Valute>)

  /** The responses successive requests for one URL get, attempt 0 first. */
  type Responses = nat -> Attempt

  /** Python's `part in text` on strings. */
  predicate Contains(text: string, part: string)
    decreases |text|
  {
    part <= text || (|text| > 0 && Contains(text[1..], part))
  }

  /** `part` occurs in `text` starting at index `i`. */
  predicate At(text: string, part: string, i: int)
  {
    0 <= i && i + |part| <= |text| && text[i..i + |part|] == part
  }

  /** `Contains` is substring search: it holds exactly when `part` occurs in
      `text` at some index. */
  lemma {:induction false} ContainsIsSubstring(text: string, part: string)
    ensures Contains(text, part) <==> exists i :: At(text, part, i)
    decreases |text|
  {
    if part <= text {
      assert At(text, part, 0);
    }
    if |text| == 0 {
      if exists i :: At(text, part, i) {
        var i :| At(text, part, i);
        assert part == [];
      }
    } else {
      var tail := text[1..];
      ContainsIsSubstring(tail, part);
      if exists i :: At(tail, part, i) {
        var i :| At(tail, part, i);
        assert text[i + 1..i + 1 + |part|] == tail[i..i + |part|];
        assert At(text, part, i + 1);
      }
      if exists i :: At(text, part, i) {
        var i :| At(text, part, i);
        if i > 0 {
          assert tail[i - 1..i - 1 + |part|] == text[i..i + |part|];
          assert At(tail, part, i - 1);
        } else {
          assert part <= text;
        }
      }
    }
  }

  /** The verdict on one attempt. */
  datatype Verdict = Retryable | NoDataForDate | Success(valute: Option<Valute>)

  /** Classifies one attempt in the order the source tests it: a non-200
      status without the marker first, then the marker, then success. */
  function Classify(a: Attempt): (v: Verdict)
    ensures v.NoDataForDate? <==> a.Response? && Contains(a.text, Marker)
    ensures v.Success? <==> a.Response? && a.status == 200 && !Contains(a.text, Marker)
    ensures v.Retryable? <==> a.Raised? || (a.status != 200 && !Contains(a.text, Marker))
    ensures v.Success? ==> v.valute == a.valute
  {
    match a
    case Raised => Retryable
    case Response(status, text, valute) =>
      if status != 200 && !Contains(text, Marker) then Retryable
      else if Contains(text, Marker) then NoDataForDate
      else Success(valute)
  }

  /** What the retry loop hands back to the driver: the successful response's
      `Valute`, None for "no rate on this date", or None after the last attempt. */
  datatype FetchResult = Fetched(valute: Option<Valute>) | NoData | Exhausted

  /** The result a terminal verdict ends the loop with. */
  function Terminal(v: Verdict): (r: FetchResult)
    requires !v.Retryable?
    ensures !r.Exhausted?
    ensures r.NoData? <==> v.NoDataForDate?
    ensures r.Fetched? <==> v.Success?
    ensures v.Success? ==> r == Fetched(v.valute)
  {
    match v
    case NoDataForDate => NoData
    case Success(valute) => Fetched(valute)
  }

  /** The outcome of the retry loop and the sleeps it performed, in order. */
  datatype Retrial = Retrial(result: FetchResult, delays: seq<int>)

  /** Number of requests the loop issued. */
  function Attempts(r: Retrial): nat
  {
    if r.result.Exhausted? then |r.delays| else |r.delays| + 1
  }

  function Pow2(k: nat): (p: nat)
    ensures p >= 1
  {
    if k == 0 then 1 else 2 * Pow2(k - 1)
  }

  /** The sleep after failed attempt `retry`: the first sleep is
      `delay_seconds` and each later one doubles the one before, which is
      the source's `delay_seconds * 2 ** retry`. */
  function Delay(delaySeconds: int, retry: nat): (d: int)
    ensures d == delaySeconds * Pow2(retry)
    decreases retry
  {
    if retry == 0 then delaySeconds
    else
      MulAssoc(delaySeconds, 2, Pow2(retry - 1));
      2 * Delay(delaySeconds, retry - 1)
  }

  function Max0(n: int): nat
  {
    if n < 0 then 0 else n
  }

  /** The loop `for retry in range(n_retries)` from iteration `retry` on. */
  function RetryFrom(responses: Responses, retry: nat, nRetries: int, delaySeconds: int): (r: Retrial)
    ensures |r.delays| <= Max0(nRetries - retry)
    ensures forall i :: retry <= i < retry + |r.delays| ==>
      Classify(responses(i)).Retryable? && r.delays[i - retry] == Delay(delaySeconds, i)
    ensures r.result.Exhausted? ==> |r.delays| == Max0(nRetries - retry)
    ensures !r.result.Exhausted? ==>
      retry + |r.delays| < nRetries
      && !Classify(responses(retry + |r.delays|)).Retryable?
      && r.result == Terminal(Classify(responses(retry + |r.delays|)))
    decreases nRetries - retry
  {
    if retry >= nRetries then Retrial(Exhausted, [])
    else
      var v := Classify(responses(retry));
      if v.Retryable? then
        var rest := RetryFrom(responses, retry + 1, nRetries, delaySeconds);
        var r := Retrial(rest.result, [Delay(delaySeconds, retry)] + rest.delays);
        r
      else Retrial(Terminal(v), [])
  }

  /** `make_retry(url, params, n_retries, delay_seconds)`: the first terminal
      attempt within `n_retries` decides the result; every attempt before it
      was retryable and was followed by a sleep of `delay_seconds * 2**retry`;
      if none is terminal the loop is exhausted after sleeping `n_retries` times. */
  function MakeRetry(responses: Responses, nRetries: int, delaySeconds: int): (r: Retrial)
    ensures Attempts(r) <= Max0(nRetries)
    ensures forall k :: 0 <= k < |r.delays| ==>
      Classify(responses(k)).Retryable? && r.delays[k] == Delay(delaySeconds, k)
    ensures r.result.Exhausted? ==> |r.delays| == Max0(nRetries)
    ensures !r.result.Exhausted? ==>
      |r.delays| < nRetries
      && !Classify(responses(|r.delays|)).Retryable?
      && r.result == Terminal(Classify(responses(|r.delays|)))
  {
    RetryFrom(responses, 0, nRetries, delaySeconds)
  }

  /** Only the first `n_retries` responses are ever requested: two oracles
      that agree on them give the same outcome and the same sleeps. */
  lemma {:induction false} RetryFromAgrees(r1: Responses, r2: Responses, retry: nat, nRetries: int, delaySeconds: int)
    requires forall k :: retry <= k < nRetries ==> r1(k) == r2(k)
    ensures RetryFrom(r1, retry, nRetries, delaySeconds) == RetryFrom(r2, retry, nRetries, delaySeconds)
    decreases nRetries - retry
  {
    if retry < nRetries {
      RetryFromAgrees(r1, r2, retry + 1, nRetries, delaySeconds);
    }
  }

  /** The loop gives up only when every permitted attempt was retryable. */
  lemma ExhaustedIffAllRetryable(responses: Responses, nRetries: int, delaySeconds: int)
    ensures MakeRetry(responses, nRetries, delaySeconds).result.Exhausted?
        <==> forall k :: 0 <= k < nRetries ==> Classify(responses(k)).Retryable?
  {
    var r := MakeRetry(responses, nRetries, delaySeconds);
    if r.result.Exhausted? {
      forall k | 0 <= k < nRetries
        ensures Classify(responses(k)).Retryable?
      {
        assert r.delays[k] == Delay(delaySeconds, k);
      }
    }
  }

  /** The first terminal attempt, at any index below `n_retries`, ends the loop:
      the marker gives "no data" whatever the status, a 200 without the marker
      gives the response, and nothing after it is requested. */
  lemma {:induction false} FirstTerminalDecides(responses: Responses, nRetries: int, delaySeconds: int, j: nat)
    requires j < nRetries
    requires forall k :: 0 <= k < j ==> Classify(responses(k)).Retryable?
    requires !Classify(responses(j)).Retryable?
    ensures MakeRetry(responses, nRetries, delaySeconds) ==
      Retrial(Terminal(Classify(responses(j))), seq(j, k requires 0 <= k < j => Delay(delaySeconds, k)))
    ensures Attempts(MakeRetry(responses, nRetries, delaySeconds)) == j + 1
  {
    var r := MakeRetry(responses, nRetries, delaySeconds);
    assert |r.delays| == j;
    assert r.delays == seq(j, k requires 0 <= k < j => Delay(delaySeconds, k));
  }

  /** Each sleep is twice the one before it. */
  lemma BackoffDoubles(responses: Responses, nRetries: int, delaySeconds: int)
    ensures var r := MakeRetry(responses, nRetries, delaySeconds);
      forall k :: 0 < k < |r.delays| ==> r.delays[k] == 2 * r.delays[k - 1]
  {
    var r := MakeRetry(responses, nRetries, delaySeconds);
    forall k | 0 < k < |r.delays|
      ensures r.delays[k] == 2 * r.delays[k - 1]
    {
      assert r.delays[k] == Delay(delaySeconds, k);
      assert r.delays[k - 1] == Delay(delaySeconds, k - 1);
    }
  }

  lemma MulAssoc(a: int, b: int, c: int)
    ensures a * (b * c) == b * (a * c)
  {
  }

  function Sum(s: seq<int>): int
  {
    if |s| == 0 then 0 else s[0] + Sum(s[1..])
  }

  /** The sleeps from iteration `retry` on add up to a geometric series. */
  lemma {:induction false} GeometricSum(responses: Responses, retry: nat, nRetries: int, delaySeconds: int)
    ensures var r := RetryFrom(responses, retry, nRetries, delaySeconds);
      Sum(r.delays) == Delay(delaySeconds, retry) * (Pow2(|r.delays|) - 1)
    decreases nRetries - retry
  {
    var r := RetryFrom(responses, retry, nRetries, delaySeconds);
    if retry < nRetries && Classify(responses(retry)).Retryable? {
      var rest := RetryFrom(responses, retry + 1, nRetries, delaySeconds);
      GeometricSum(responses, retry + 1, nRetries, delaySeconds);
      assert r.delays[1..] == rest.delays;
      var a := Delay(delaySeconds, retry);
      var p := Pow2(|rest.delays|);
      assert Delay(delaySeconds, retry + 1) == 2 * a;
      assert Pow2(|r.delays|) == 2 * p;
      calc {
        Sum(r.delays);
        a + Sum(rest.delays);
        a + (2 * a) * (p - 1);
        { Distribute(a, p); }
        a * (2 * p - 1);
      }
    }
  }

  lemma Distribute(a: int, p: int)
    ensures a + (2 * a) * (p - 1) == a * (2 * p - 1)
  {
  }

  /** With the tap's constants (10 attempts, 10 s base) one day waits at most
      10 + 20 + ... + 5120 = 10230 seconds in backoff. */
  lemma DefaultBackoffBound(responses: Responses)
    ensures Sum(MakeRetry(responses, NRetries, DelaySeconds).delays) <= 10230
  {
    var r := MakeRetry(responses, NRetries, DelaySeconds);
    GeometricSum(responses, 0, NRetries, DelaySeconds);
    TenfoldBound(Sum(r.delays), Delay(DelaySeconds, 0), |r.delays|);
  }

  lemma TenfoldBound(total: int, a: int, n: nat)
    requires n <= 10 && a == 10 && total == a * (Pow2(n) - 1)
    ensures total <= 10230
  {
    Pow2UpToTen(n);
  }

  /** With the tap's constants no single sleep exceeds 5120 seconds. */
  lemma DefaultSleepBound(responses: Responses)
    ensures var r := MakeRetry(responses, NRetries, DelaySeconds);
      forall k :: 0 <= k < |r.delays| ==> r.delays[k] <= 5120
  {
    var r := MakeRetry(responses, NRetries, DelaySeconds);
    forall k | 0 <= k < |r.delays|
      ensures r.delays[k] <= 5120
    {
      assert r.delays[k] == Delay(10, k);
      DefaultDelayBound(k);
    }
  }

  lemma DefaultDelayBound(k: nat)
    requires k < 10
    ensures Delay(10, k) <= 5120
  {
    Pow2UpToTen(k);
  }

  /** 2^k for the exponents the default loop reaches. */
  lemma Pow2UpToTen(k: nat)
    requires k <= 10
    ensures Pow2(k) <= 1024
    ensures k < 10 ==> Pow2(k) <= 512
  {
    Pow2Ten();
    if k < 10 {
      Pow2Monotone(k, 9);
    } else {
      Pow2Monotone(k, 10);
    }
  }

  lemma Pow2Ten()
    ensures Pow2(9) == 512 && Pow2(10) == 1024
  {
    assert Pow2(2) == 4;
    assert Pow2(4) == 16;
    assert Pow2(6) == 64;
    assert Pow2(8) == 256;
  }

  lemma {:induction false} Pow2Monotone(a: nat, b: nat)
    requires a <= b
    ensures Pow2(a) <= Pow2(b)
    decreases b
  {
    if a < b {
      Pow2Monotone(a, b - 1);
    }
  }
}

=== FILE: records.dfy ===
/**
  Record normalisation and schema derivation: the `currencies` setting is
  coerced into a filter, one day's `Valute` object is flattened into a wide
  record (`date`, `CODE`, `CODE_Nominal`, ...), and a schema is derived from a
  record's keys (`make_schema`).
 */
module Records {
  import opened Values

  /** One field of a normalised record: the processed date, or a nullable number. */
  datatype Field = DateField(day: Day) | Num(n: Option<Number>)

  /** A normalised record: field name to field. */
  type Record = map<string, Field>

  /** The configured `currencies` value: a list of codes, or any other JSON
      value (including none at all). */
  datatype CurrenciesSetting = NotAList | AList(codes: seq<string>)

  /** Which currencies a record lists: every currency of the day, or exactly
      the given (non-empty) list. */
  datatype Filter = AllCurrencies | Only(codes: seq<string>)

  /** A setting that is not a list is ignored, and an empty list is falsy, so
      both select every currency; a non-empty list is used as given. */
  function CoerceFilter(s: CurrenciesSetting): (f: Filter)
    ensures f.Only? <==> s.AList? && |s.codes| > 0
    ensures f.Only? ==> f.codes == s.codes && |f.codes| > 0
  {
    match s
    case NotAList => AllCurrencies
    case AList(codes) => if |codes| > 0 then Only(codes) else AllCurrencies
  }

  /** The codes a record gets columns for, in the order they are written. */
  function Columns(v: Valute, f: Filter): seq<string>
  {
    match f
    case AllCurrencies => Names(v)
    case Only(codes) => codes
  }

  function NominalKey(code: string): string
  {
    code + "_Nominal"
  }

  /** `Value` of an entry, None when the currency is absent that day. */
  function ValueOf(r: Option<Rate>): Option<Number>
  {
    match r
    case None => None
    case Some(rate) => rate.value
  }

  /** `Nominal` of an entry, None when the currency is absent that day. */
  function NominalOf(r: Option<Rate>): Option<Number>
  {
    match r
    case None => None
    case Some(rate) => rate.nominal
  }

  /** The column loop: for each code in turn, `record[code] = Value` and then
      `record[code + "_Nominal"] = Nominal`; later writes overwrite earlier ones.
      It adds exactly `CODE` and `CODE_Nominal` for each code it runs over. */
  function Assign(rec: Record, codes: seq<string>, v: Valute): (r: Record)
    ensures r.Keys == rec.Keys + ColumnKeys(codes)
    decreases |codes|
  {
    if |codes| == 0 then rec
    else
      var c := codes[0];
      var entry := Lookup(v, c);
      assert codes == [c] + codes[1..];
      assert ColumnKeys(codes) == {c, NominalKey(c)} + ColumnKeys(codes[1..]);
      Assign(rec[c := Num(ValueOf(entry))][NominalKey(c) := Num(NominalOf(entry))], codes[1..], v)
  }

  /** The record built for `day` from that day's `Valute` object: it has
      exactly the key `date` plus `CODE` and `CODE_Nominal` for every column
      code, whether or not the currency is present that day, and its `date`
      reads back as `day` exactly when no column code is `date` (a code `date`
      overwrites it with a number). */
  function Flatten(day: Day, v: Valute, f: Filter): (rec: Record)
    ensures rec.Keys == {"date"} + ColumnKeys(Columns(v, f))
    ensures RecordDate(rec) == (if "date" in Columns(v, f) then None else Some(day))
  {
    AssignDate(day, Columns(v, f), v);
    Assign(map["date" := DateField(day)], Columns(v, f), v)
  }

  /** The keys the column loop adds for `codes`. */
  function ColumnKeys(codes: seq<string>): set<string>
  {
    (set c | c in codes) + (set c | c in codes :: NominalKey(c))
  }

  /** No code is "date" and no code is another code's nominal column, so no
      write of the column loop overwrites another one. */
  predicate ClashFree(codes: seq<string>)
  {
    && "date" !in codes
    && forall c, c' :: c in codes && c' in codes ==> c != NominalKey(c')
  }

  /** The date a record carries, as the state update reads it back; None when
      a currency column has overwritten `date`. */
  function RecordDate(rec: Record): (r: Option<Day>)
    ensures r.Some? ==> "date" in rec && rec["date"] == DateField(r.value)
    ensures r.None? ==> "date" !in rec || rec["date"].Num?
  {
    if "date" in rec && rec["date"].DateField? then Some(rec["date"].day) else None
  }

  lemma NominalKeyNotDate(c: string)
    ensures NominalKey(c) != "date"
    ensures NominalKey(c) != c
  {
    assert |NominalKey(c)| == |c| + 8;
  }

  lemma NominalKeyInjective(c: string, c': string)
    requires NominalKey(c) == NominalKey(c')
    ensures c == c'
  {
    assert |c| == |c'|;
    assert c == NominalKey(c)[..|c|];
    assert c' == NominalKey(c')[..|c'|];
  }

  /** A key that is never a nominal column ends with the value of its last
      write, which is the same for every write of it. */
  lemma {:induction false} AssignValue(rec: Record, codes: seq<string>, v: Valute, c: string)
    requires forall c' :: c' in codes ==> c != NominalKey(c')
    requires c in codes || (c in rec && rec[c] == Num(ValueOf(Lookup(v, c))))
    ensures c in Assign(rec, codes, v) && Assign(rec, codes, v)[c] == Num(ValueOf(Lookup(v, c)))
    decreases |codes|
  {
    if |codes| > 0 {
      var h := codes[0];
      var entry := Lookup(v, h);
      var rec' := rec[h := Num(ValueOf(entry))][NominalKey(h) := Num(NominalOf(entry))];
      assert c != NominalKey(h);
      AssignValue(rec', codes[1..], v, c);
    }
  }

  /** A nominal column that is not also a code's value column ends with the
      nominal of its code. */
  lemma {:induction false} AssignNominal(rec: Record, codes: seq<string>, v: Valute, c: string)
    requires NominalKey(c) !in codes
    requires c in codes || (NominalKey(c) in rec && rec[NominalKey(c)] == Num(NominalOf(Lookup(v, c))))
    ensures NominalKey(c) in Assign(rec, codes, v)
    ensures Assign(rec, codes, v)[NominalKey(c)] == Num(NominalOf(Lookup(v, c)))
    decreases |codes|
  {
    if |codes| > 0 {
      var h := codes[0];
      var entry := Lookup(v, h);
      var rec' := rec[h := Num(ValueOf(entry))][NominalKey(h) := Num(NominalOf(entry))];
      if NominalKey(h) == NominalKey(c) {
        NominalKeyInjective(h, c);
      }
      AssignNominal(rec', codes[1..], v, c);
    }
  }

  /** A key no write touches keeps its value. */
  lemma {:induction false} AssignUntouched(rec: Record, codes: seq<string>, v: Valute, k: string)
    requires k in rec && k !in ColumnKeys(codes)
    ensures k in Assign(rec, codes, v) && Assign(rec, codes, v)[k] == rec[k]
    decreases |codes|
  {
    if |codes| > 0 {
      var h := codes[0];
      var entry := Lookup(v, h);
      var rec' := rec[h := Num(ValueOf(entry))][NominalKey(h) := Num(NominalOf(entry))];
      assert ColumnKeys(codes[1..]) <= ColumnKeys(codes);
      AssignUntouched(rec', codes[1..], v, k);
    }
  }

  /** Without clashing codes, `date` is the processed day and every column
      holds the `Value` / `Nominal` of its currency, null when the currency is
      absent that day. */
  lemma FlattenValues(day: Day, v: Valute, f: Filter)
    requires ClashFree(Columns(v, f))
    ensures var rec := Flatten(day, v, f);
      && RecordDate(rec) == Some(day)
      && forall c :: c in Columns(v, f) ==>
           && c in rec && rec[c] == Num(ValueOf(Lookup(v, c)))
           && NominalKey(c) in rec && rec[NominalKey(c)] == Num(NominalOf(Lookup(v, c)))
  {
    var cols := Columns(v, f);
    var start := map["date" := DateField(day)];
    forall k | k in ColumnKeys(cols)
      ensures k != "date"
    {
      if k !in cols {
        var c :| c in cols && k == NominalKey(c);
        NominalKeyNotDate(c);
      }
    }
    AssignUntouched(start, cols, v, "date");
    forall c | c in cols
      ensures var rec := Flatten(day, v, f);
        && c in rec && rec[c] == Num(ValueOf(Lookup(v, c)))
        && NominalKey(c) in rec && rec[NominalKey(c)] == Num(NominalOf(Lookup(v, c)))
    {
      AssignValue(start, cols, v, c);
      AssignNominal(start, cols, v, c);
    }
  }

  /** A filtered code the day does not list still gets both columns, each
      null rather than missing. */
  lemma FilteredAbsentIsNull(day: Day, v: Valute, codes: seq<string>, c: string)
    requires ClashFree(codes)
    requires c in codes && c !in Names(v)
    ensures var rec := Flatten(day, v, Only(codes));
      && c in rec && rec[c] == Num(None)
      && NominalKey(c) in rec && rec[NominalKey(c)] == Num(None)
  {
    FlattenValues(day, v, Only(codes));
  }

  /** Without a filter every currency of the day is present, so no column is null
      because of absence: when no code of the day is another code's nominal
      column, each holds exactly that entry's `Value` and `Nominal` (even a
      currency called `date` does). */
  lemma UnfilteredValues(day: Day, v: Valute, i: nat)
    requires forall c, c' :: c in Names(v) && c' in Names(v) ==> c != NominalKey(c')
    requires i < |v|
    ensures var rec := Flatten(day, v, AllCurrencies);
      && v[i].0 in rec && rec[v[i].0] == Num(v[i].1.value)
      && NominalKey(v[i].0) in rec && rec[NominalKey(v[i].0)] == Num(v[i].1.nominal)
  {
    var c := v[i].0;
    var cols := Columns(v, AllCurrencies);
    assert c == cols[i];
    assert c in cols;
    assert Lookup(v, c) == Some(v[i].1);
    assert NominalKey(c) !in cols by {
      if NominalKey(c) in cols {
        assert false;
      }
    }
    assert forall c' :: c' in cols ==> c != NominalKey(c');
    AssignValue(map["date" := DateField(day)], cols, v, c);
    AssignNominal(map["date" := DateField(day)], cols, v, c);
  }

  /** The day written first survives the column loop exactly when no code is
      `date`. */
  lemma AssignDate(day: Day, cols: seq<string>, v: Valute)
    ensures RecordDate(Assign(map["date" := DateField(day)], cols, v)) == (if "date" in cols then None else Some(day))
  {
    var start := map["date" := DateField(day)];
    forall c' | c' in cols
      ensures "date" != NominalKey(c')
    {
      NominalKeyNotDate(c');
    }
    if "date" in cols {
      AssignValue(start, cols, v, "date");
    } else {
      assert "date" !in ColumnKeys(cols);
      AssignUntouched(start, cols, v, "date");
    }
  }

  /** A three-letter code (as the archive's codes are) can be neither `date`
      nor a nominal column, so such a filter never clashes. */
  lemma ThreeLetterCodesClashFree(codes: seq<string>)
    requires forall c :: c in codes ==> |c| == 3
    ensures ClashFree(codes)
  {
    forall c, c' | c in codes && c' in codes
      ensures c != NominalKey(c')
    {
      assert |NominalKey(c')| == |c'| + 8;
    }
  }

  /** A record schema property type. */
  datatype PropType = DateString | NullableNumber

  /** The `properties` of a schema (its `type` is always `object`). */
  type Schema = map<string, PropType>

  /** `make_schema(record)`: `date` is declared as a date string, then every
      other key of the record not yet declared is added as a nullable number. */
  function MakeSchema(rec: Record): (s: Schema)
    ensures s.Keys == {"date"} + rec.Keys
    ensures s["date"] == DateString
    ensures forall k :: k in s && k != "date" ==> s[k] == NullableNumber
  {
    map["date" := DateString] + map k | k in rec.Keys && k != "date" :: NullableNumber
  }

  predicate Conforms(x: Field, t: PropType)
  {
    match t
    case DateString => x.DateField?
    case NullableNumber => x.Num?
  }

  /** Every field of the record is declared by the schema with a fitting type. */
  predicate Describes(s: Schema, rec: Record)
  {
    forall k :: k in rec ==> k in s && Conforms(rec[k], s[k])
  }

  /** The date is the only date field. */
  predicate WellTyped(rec: Record)
  {
    forall k :: k in rec ==> (rec[k].DateField? <==> k == "date")
  }

  /** The schema of a record describes that record exactly when the record's
      only date field is `date`. */
  lemma SchemaDescribesIff(rec: Record)
    ensures Describes(MakeSchema(rec), rec) <==> WellTyped(rec)
  {
    var s := MakeSchema(rec);
    if Describes(s, rec) {
      forall k | k in rec
        ensures rec[k].DateField? <==> k == "date"
      {
        assert k in s && Conforms(rec[k], s[k]);
      }
    }
  }

  /** A flattened record is well typed exactly when no column code is `date`. */
  lemma FlattenWellTyped(day: Day, v: Valute, f: Filter)
    ensures WellTyped(Flatten(day, v, f)) <==> "date" !in Columns(v, f)
  {
    var rec := Flatten(day, v, f);
    AssignNumbers(map["date" := DateField(day)], Columns(v, f), v);
  }

  /** The column loop writes only numbers. */
  lemma {:induction false} AssignNumbers(rec: Record, codes: seq<string>, v: Valute)
    ensures forall k :: k in Assign(rec, codes, v) && k in ColumnKeys(codes) ==> Assign(rec, codes, v)[k].Num?
    decreases |codes|
  {
    if |codes| > 0 {
      var h := codes[0];
      var entry := Lookup(v, h);
      var rec' := rec[h := Num(ValueOf(entry))][NominalKey(h) := Num(NominalOf(entry))];
      AssignNumbers(rec', codes[1..], v);
      assert codes == [h] + codes[1..];
      assert ColumnKeys(codes) == {h, NominalKey(h)} + ColumnKeys(codes[1..]);
      forall k | k in Assign(rec, codes, v) && k in ColumnKeys(codes) && k !in ColumnKeys(codes[1..])
        ensures Assign(rec, codes, v)[k].Num?
      {
        AssignUntouched(rec', codes[1..], v, k);
      }
    }
  }

  /** With a filter every record has the same keys, so the schema derived
      from any one of them describes all of them (when no code is `date`). */
  lemma FilteredSchemaFitsEveryRecord(d1: Day, v1: Valute, d2: Day, v2: Valute, codes: seq<string>)
    requires "date" !in codes
    ensures Describes(MakeSchema(Flatten(d2, v2, Only(codes))), Flatten(d1, v1, Only(codes)))
  {
    var r1 := Flatten(d1, v1, Only(codes));
    var r2 := Flatten(d2, v2, Only(codes));
    assert r1.Keys == r2.Keys;
    FlattenWellTyped(d1, v1, Only(codes));
  }
}

=== FILE: scenarios.dfy ===
/**
  Concrete runs of the tap on small archives: what `do_sync` writes for a
  filtered single day, how a day ends that first fails and then reports "no
  rate", and how the schema of an unfiltered run can miss a column an
  earlier record has.
 */
module Scenarios {
  import opened Values
  import opened Fetcher
  import opened Records
  import opened Driver

  const UsdRate: Rate := Rate(Some(Number(9055)), Some(Number(1)))
  const EurRate: Rate := Rate(Some(Number(9870)), Some(Number(1)))

  /** A snapshot listing one currency. */
  function Snapshot(code: string, rate: Rate): Valute
  {
    [(code, rate)]
  }

  /** An archive that answers every request for `day` with status 200 and
      the given snapshot. */
  function Serving(snapshots: Day -> Valute): Archive
  {
    d => (k: nat) => Response(200, "", Some(snapshots(d)))
  }

  /** An empty body never contains the no-data marker. */
  lemma EmptyTextHasNoMarker()
    ensures !Contains("", Marker)
  {
    assert |Marker| > 0;
  }

  /** A 404 carrying the marker is "no rate for this date", not a retry:
      the marker is tested before success but after the status. */
  lemma MarkerBeatsStatus()
    ensures Classify(Response(404, Marker, None)) == NoDataForDate
    ensures Classify(Response(500, "", None)) == Retryable
  {
    assert Marker <= Marker;
    EmptyTextHasNoMarker();
  }

  /** Two transient failures, then the marker: the day yields no record
      after two sleeps of 10 and 20 seconds. */
  lemma TwoFailuresThenNoData(archive: Archive, day: Day)
    requires archive(day)(0) == Raised
    requires archive(day)(1) == Response(503, "", None)
    requires archive(day)(2) == Response(200, Marker, None)
    ensures MakeRetry(archive(day), NRetries, DelaySeconds) == Retrial(NoData, [10, 20])
    ensures DayRecord(archive, AllCurrencies, day).None?
  {
    EmptyTextHasNoMarker();
    assert Marker <= Marker;
    assert Contains(Marker, Marker);
    FirstTerminalDecides(archive(day), NRetries, DelaySeconds, 2);
    assert Delay(DelaySeconds, 1) == 20;
  }

  /** A served day yields its snapshot after one request. */
  lemma ServedDay(snapshots: Day -> Valute, day: Day)
    requires |snapshots(day)| > 0
    ensures DayValute(Serving(snapshots), day) == Some(snapshots(day))
  {
    EmptyTextHasNoMarker();
    FirstTerminalDecides(Serving(snapshots)(day), NRetries, DelaySeconds, 0);
  }

  /** The record of one listed code: its value and nominal beside the date. */
  lemma SingleColumn(day: Day, v: Valute, code: string, rate: Rate)
    requires Lookup(v, code) == Some(rate)
    ensures Assign(map["date" := DateField(day)], [code], v)
         == map["date" := DateField(day), code := Num(rate.value), NominalKey(code) := Num(rate.nominal)]
  {
    assert [code][1..] == [];
  }

  function BothCurrencies(d: Day): Valute
  {
    [("USD", UsdRate), ("EUR", EurRate)]
  }

  function UsdRecord(day: Day): Record
  {
    map["date" := DateField(day), "USD" := Num(Some(Number(9055))), "USD_Nominal" := Num(Some(Number(1)))]
  }

  function EurRecord(day: Day): Record
  {
    map["date" := DateField(day), "EUR" := Num(Some(Number(9870))), "EUR_Nominal" := Num(Some(Number(1)))]
  }

  /** Filtered to USD, a day listing USD and EUR gives the USD columns only. */
  lemma FilteredUsdRecord(day: Day)
    ensures DayRecord(Serving(BothCurrencies), Only(["USD"]), day) == Some(UsdRecord(day))
  {
    ServedDay(BothCurrencies, day);
    assert Lookup(BothCurrencies(day), "USD") == Some(UsdRate);
    SingleColumn(day, BothCurrencies(day), "USD", UsdRate);
    assert NominalKey("USD") == "USD_Nominal";
  }

  /** A one-day run filtered to USD on a day that lists USD and EUR writes
      the schema {date, USD, USD_Nominal}, the one record, and the state
      moved to the next day. */
  lemma FilteredSingleDay(day: Day)
    ensures Sync(day, day, AList(["USD"]), Serving(BothCurrencies)) ==
        SyncRun([day],
                [SchemaEvent(Stream, map["date" := DateString, "USD" := NullableNumber, "USD_Nominal" := NullableNumber], KeyProperty),
                 RecordEvent(Stream, UsdRecord(day)),
                 StateEvent(RunState(day + 1, day + 1))],
                Completed(1))
  {
    FilteredUsdHarvest(day);
    FilteredUsdOutput(day);
    assert CoerceFilter(AList(["USD"])) == Only(["USD"]);
  }

  /** The output after the loop for the one USD record. */
  lemma FilteredUsdOutput(day: Day)
    ensures Publish([UsdRecord(day)], RunState(day, day)) ==
        Output([SchemaEvent(Stream, map["date" := DateString, "USD" := NullableNumber, "USD_Nominal" := NullableNumber], KeyProperty),
                RecordEvent(Stream, UsdRecord(day)),
                StateEvent(RunState(day + 1, day + 1))],
               Completed(1))
  {
    var data := [UsdRecord(day)];
    assert RecordDate(data[0]) == Some(day);
    PublishShape(data, [day], RunState(day, day));
    var o := Publish(data, RunState(day, day));
    assert o.events[0 + 1] == RecordEvent(Stream, data[0]);
    UsdSchema(day);
  }

  /** The schema of the USD record: the date and the two USD columns. */
  lemma UsdSchema(day: Day)
    ensures MakeSchema(UsdRecord(day)) == map["date" := DateString, "USD" := NullableNumber, "USD_Nominal" := NullableNumber]
  {
    assert UsdRecord(day).Keys == {"date", "USD", "USD_Nominal"};
  }

  /** The loop over the single day fetches it and accumulates its record. */
  lemma FilteredUsdHarvest(day: Day)
    ensures Loop(DaySteps(Serving(BothCurrencies), Only(["USD"])), day, day) == Harvest([day], [day], [UsdRecord(day)])
  {
    var step := DaySteps(Serving(BothCurrencies), Only(["USD"]));
    FilteredUsdRecord(day);
    assert step(day) == Some(UsdRecord(day));
    assert Loop(step, day + 1, day) == Harvest([], [], []);
  }

  function UsdThenEur(d: Day): Valute
  {
    if d == 0 then Snapshot("USD", UsdRate) else Snapshot("EUR", EurRate)
  }

  /** Unfiltered, each day's record has the columns of that day's currency. */
  lemma UsdThenEurRecords()
    ensures DayRecord(Serving(UsdThenEur), AllCurrencies, 0) == Some(UsdRecord(0))
    ensures DayRecord(Serving(UsdThenEur), AllCurrencies, 1) == Some(EurRecord(1))
  {
    ServedDay(UsdThenEur, 0);
    ServedDay(UsdThenEur, 1);
    SingleColumn(0, UsdThenEur(0), "USD", UsdRate);
    SingleColumn(1, UsdThenEur(1), "EUR", EurRate);
    assert NominalKey("USD") == "USD_Nominal" && NominalKey("EUR") == "EUR_Nominal";
    assert Names(UsdThenEur(0)) == ["USD"];
    assert Names(UsdThenEur(1)) == ["EUR"];
  }

  /** The loop over days 0 and 1 fetches both and accumulates both records,
      in order. */
  lemma UsdThenEurHarvest()
    ensures Loop(DaySteps(Serving(UsdThenEur), AllCurrencies), 0, 1) == Harvest([0, 1], [0, 1], [UsdRecord(0), EurRecord(1)])
  {
    var step := DaySteps(Serving(UsdThenEur), AllCurrencies);
    UsdThenEurRecords();
    assert step(0) == Some(UsdRecord(0));
    EurDayHarvest();
  }

  /** The loop over day 1 alone. */
  lemma EurDayHarvest()
    ensures Loop(DaySteps(Serving(UsdThenEur), AllCurrencies), 1, 1) == Harvest([1], [1], [EurRecord(1)])
  {
    var step := DaySteps(Serving(UsdThenEur), AllCurrencies);
    UsdThenEurRecords();
    assert step(1) == Some(EurRecord(1));
    assert Loop(step, 2, 1) == Harvest([], [], []);
  }

  /** The run over days 0 and 1 completes with both records. */
  lemma UsdThenEurOutput()
    ensures var r := Sync(0, 1, NotAList, Serving(UsdThenEur));
      && r.completion == Completed(2)
      && CompletedStream(r.events, [UsdRecord(0), EurRecord(1)], [0, 1], 1)
  {
    var data := [UsdRecord(0), EurRecord(1)];
    UsdThenEurHarvest();
    assert CoerceFilter(NotAList) == AllCurrencies;
    assert RecordDate(data[0]) == Some(0) && RecordDate(data[1]) == Some(1);
    PublishShape(data, [0, 1], RunState(0, 1));
  }

  /** Without a filter, a run over a day listing only USD and a day listing
      only EUR completes, yet its schema, built from the last record, does
      not describe the first record: `USD` has no property. */
  lemma UnfilteredSchemaMayOmitKeys()
    ensures var r := Sync(0, 1, NotAList, Serving(UsdThenEur));
      && r.completion == Completed(2)
      && r.events[0].SchemaEvent? && r.events[1].RecordEvent?
      && "USD" in r.events[1].record
      && "USD" !in r.events[0].schema
      && !Describes(r.events[0].schema, r.events[1].record)
  {
    UsdThenEurOutput();
    var r := Sync(0, 1, NotAList, Serving(UsdThenEur));
    StreamHead(r.events, [UsdRecord(0), EurRecord(1)], [0, 1], 1);
    EurSchemaMissesUsd();
  }

  /** The schema of the EUR record has no property for USD. */
  lemma EurSchemaMissesUsd()
    ensures "USD" in UsdRecord(0)
    ensures "USD" !in MakeSchema(EurRecord(1))
    ensures !Describes(MakeSchema(EurRecord(1)), UsdRecord(0))
  {
    assert MakeSchema(EurRecord(1)).Keys == {"date", "EUR", "EUR_Nominal"};
  }

  /** The first two messages of a completed stream. */
  lemma StreamHead(events: seq<Event>, data: seq<Record>, days: seq<Day>, dateStop: Day)
    requires CompletedStream(events, data, days, dateStop)
    ensures events[0] == SchemaEvent(Stream, MakeSchema(data[|data| - 1]), KeyProperty)
    ensures events[1] == RecordEvent(Stream, data[0])
  {
    assert events[0 + 1] == RecordEvent(Stream, data[0]);
  }
}

=== FILE: values.dfy ===
/**
  Values shared by the fetcher, the record builder and the sync driver of the
  daily exchange-rate tap: optional values, calendar days, the opaque numbers
  of the archive and the parsed `Valute` object of one daily snapshot.
 */
module Values {

  /** JSON `null` / a missing key is None. */
  datatype Option<+T> = None | Some(value: T)

  /** A calendar date as a day ordinal: the day after `d` is `d + 1`. */
  type Day = int

  /** A JSON number read from the archive. The tap never computes with these
      values, it only copies them, so the model keeps them opaque. */
  datatype Number = Number(bits: int)

  /** The two fields the tap reads from one currency entry of `Valute`:
      `Value` and `Nominal`, each None when the key is absent. */
  datatype Rate = Rate(value: Option<Number>, nominal: Option<Number>)

  /** True iff no currency code occurs twice. */
  predicate DistinctNames(entries: seq<(string, Rate)>)
  {
    forall i, j :: 0 <= i < j < |entries| ==> entries[i].0 != entries[j].0
  }

  /** The `Valute` object of one daily snapshot, in the order the JSON object
      lists its keys (the order in which a dict built from it iterates). */
  type Valute = entries: seq<(string, Rate)> | DistinctNames(entries)

  /** The currency codes of a snapshot, in iteration order. */
  function Names(v: Valute): (names: seq<string>)
    ensures |names| == |v|
    ensures forall i :: 0 <= i < |v| ==> names[i] == v[i].0
  {
    if |v| == 0 then [] else [v[0].0] + Names(v[1..])
  }

  /** `valute.get(code)`: the entry stored under `code`, if any. */
  function Lookup(v: Valute, code: string): (r: Option<Rate>)
    ensures r.Some? <==> code in Names(v)
    ensures forall i :: 0 <= i < |v| && v[i].0 == code ==> r == Some(v[i].1)
  {
    if |v| == 0 then None
    else if v[0].0 == code then Some(v[0].1)
    else Lookup(v[1..], code)
  }
}
